=== FILE: README.md ===
# Documentation-site category router, modelled in Dafny

This project models the navigation core of the category router of a
documentation website (`server/routes/categories.js`). The site's content is a
tree of folders (branches) and documents (leaves) held by an external store.
For a request path the router:

- walks the path's segments down a snapshot of that tree (`retrieveDataForPath`);
- shows a folder's home document in place of the folder;
- derives the navigation context (`prepareContextualData`): breadcrumb links, sibling links, child links and the id of the container to link back to;
- builds each link list (`createRelatedList`) from the entries of a `children` object other than the page's own slug, sorted by the metadata `sort` key;
- renders the page (`handleCategory`): folders at once, documents after fetching their content;
- writes the rendered html to the cache after a successful render.

Modules, one per component of the router:

- `Wrappers` (wrappers.dfy): `Option` and `Result`.
- `Strings` (strings.dfy): JavaScript's `split` and `join` for a one-character separator, with their round trips.
- `DocTree` (doc_tree.dfy): tree nodes, `children` entries and metadata records. Property access `children[slug]` is `Get`.
- `PathResolver` (path_resolver.dfy): `retrieveDataForPath` as a method with a loop, proved against the function `Walk`, plus the traversal lemmas.
- `RelatedLinks` (related_links.dfy): `createRelatedList`, the sort and the comparator finding.
- `NavigationContext` (navigation_context.dfy): `prepareContextualData` and the breadcrumb lemmas.
- `CategoryHandler` (category_handler.dfy): `handleCategory` as a chain of results over its collaborators.

Conventions:

- A `children` object is a sequence of `slug -> node` entries in key-enumeration order, so `Object.keys` order is kept.
- Identifiers and `home` are strings. The empty string stands for a missing value, as JavaScript truthiness treats both alike.
- The metadata store (`getMeta`), the name cleaner (`cleanName`), the document fetch, byline extraction and template rendering are function parameters.
- The handler's outcome lists the calls it makes to the fetch, render and cache collaborators, in order.

## Model

| member | source | states |
|---|---|---|
| `Strings.Split` | server/routes/categories.js:86 | `split('/')` yields at least one piece and no piece contains the separator |
| `Strings.JoinSplit` | server/routes/categories.js:113 | joining the pieces of a split with the same separator gives back the string |
| `Strings.SplitJoin` | server/routes/categories.js:86 | splitting a join of separator-free pieces gives back the pieces |
| `Strings.JoinPrefix` | server/routes/categories.js:122 | the join of the first k pieces is a prefix of the join of all pieces |
| `Strings.JoinCut` | server/routes/categories.js:122 | a join splits into the join of a prefix, one separator, and the join of the rest |
| `DocTree.Get` | server/routes/categories.js:93 | `children[slug]` is undefined exactly when no entry has that slug, and otherwise is the node of an entry with that slug |
| `PathResolver.NonEmpty` | server/routes/categories.js:86 | the filter's result holds only non-empty pieces, exactly those of the input, and is never longer |
| `PathResolver.NonEmptyConcat` | server/routes/categories.js:86 | the filter of a concatenation is the concatenation of the filters, so order and multiplicity are kept |
| `PathResolver.NonEmptySingle` | server/routes/categories.js:86 | one piece survives the filter exactly when it is non-empty |
| `PathResolver.NonEmptyKeeps` | server/routes/categories.js:86 | a list of non-empty pieces passes the filter unchanged |
| `PathResolver.Segments` | server/routes/categories.js:86 | the consumed segments are non-empty, contain no `/`, and number fewer than the pieces of the split (their value is stated by `SegmentsOfJoin`) |
| `PathResolver.SegmentsOfJoin` | server/routes/categories.js:86 | for every path `/` + slash-free pieces joined by `/`, empty pieces included (`/a//b/`), the segments are the non-empty pieces in order |
| `PathResolver.Walk` | server/routes/categories.js:91-94 | the final parent is the starting parent or a branch |
| `PathResolver.Tag` | server/routes/categories.js:97-98 | a branch with a home becomes the same node with id = home (non-empty) and originalId = the branch's id; any other node keeps its id and gets no originalId; an undefined pointer gives `{}` |
| `PathResolver.RetrieveDataForPath` | server/routes/categories.js:85-103 | the loop's result equals the resolution function `Resolve`; the parent is null or a branch |
| `PathResolver.WalkTraversal` | server/routes/categories.js:88-94 | the loop consumes at most all segments; it stops only when they run out or the pointer is not a branch; the pointer is the node reached along the consumed segments and the parent the node reached along all but the last (null when none was consumed) |
| `PathResolver.WalkFrom` | server/routes/categories.js:91-94 | after reaching a node along the first j segments, the walk continues from that node with its parent |
| `PathResolver.FollowLast` | server/routes/categories.js:92-93 | a node reached along segments is the child, under the last segment, of the branch reached along the others |
| `PathResolver.ResolveFindsTarget` | server/routes/categories.js:85-102 | a path whose segments lead through branches to a node resolves to that node (after the home redirect); its parent is the branch holding it under the last segment, or null for a path without segments |
| `PathResolver.UnknownSegmentNotFound` | server/routes/categories.js:93 | a segment naming no child of the branch reached so far yields `{}` with an empty id, and that branch as parent |
| `PathResolver.TrailingSegmentsIgnored` | server/routes/categories.js:91 | segments after a leaf are ignored: the path resolves to the leaf with its own id |
| `PathResolver.RootPath` | server/routes/categories.js:85-99 | `/` resolves to the root itself (after the home redirect) with a null parent; a root with a home shows the home id and records the root's id |
| `RelatedLinks.InsertBy` | server/routes/categories.js:150 | one insertion step adds exactly the new element, and either it or the old head comes first |
| `RelatedLinks.SortBy` | server/routes/categories.js:150 | the sort returns a permutation of its input under any comparator |
| `RelatedLinks.CompareSort` | server/routes/categories.js:150 | the three-way comparator is negative, zero or positive exactly as the first `sort` key is below, equal to or above the second |
| `RelatedLinks.SourceCompare` | server/routes/categories.js:150 | the comparator as written yields 1 exactly when the first key is greater, and 0 otherwise, never a negative number |
| `RelatedLinks.InsertSorted` | server/routes/categories.js:150 | inserting under the three-way comparator keeps a list ascending by `sort` |
| `RelatedLinks.SortByCompareSortSorted` | server/routes/categories.js:150 | sorting under the three-way comparator yields ascending `sort` order |
| `RelatedLinks.Kept` | server/routes/categories.js:137-138 | the filter keeps exactly the entries whose slug differs from `self` |
| `RelatedLinks.KeptCount` | server/routes/categories.js:137-138 | with distinct keys, exactly one entry is dropped if `self` is a key, none otherwise |
| `RelatedLinks.Links` | server/routes/categories.js:139-149 | link i takes its node type from child i and sort, name, edit link and url from the metadata of child i's id |
| `RelatedLinks.RelatedList` | server/routes/categories.js:136-151 | the list is ascending by `sort` and a permutation of the links of the entries other than `self` |
| `RelatedLinks.RelatedListMembers` | server/routes/categories.js:137-149 | every listed link is the link of an entry other than `self`, and every such entry's link is listed |
| `RelatedLinks.SourceSortKeepsOrder` | server/routes/categories.js:150 | under the comparator as written, the sort returns its input unchanged |
| `RelatedLinks.UnsortedExample` | server/routes/categories.js:150 | keys 3, 1, 2 stay in that unsorted order under the comparator as written |
| `RelatedLinks.SortedExample` | server/routes/categories.js:150 | keys 3, 1, 2 come out 1, 2, 3 under the three-way comparator |
| `NavigationContext.Intermediate` | server/routes/categories.js:117-119 | the breadcrumb pieces are the split pieces minus the first and the last: piece i is split piece i + 1 |
| `NavigationContext.ParentLinks` | server/routes/categories.js:117-126 | there is one link per intermediate piece; link i takes name (cleaned) and edit link from crumb i's metadata; it throws exactly when the breadcrumb is shorter than the intermediate pieces |
| `NavigationContext.PrepareContextualData` | server/routes/categories.js:105-134 | it throws exactly when the parent is null or the breadcrumb is too short; parentId is originalId when present, else the parent's id; siblings are the related list of the parent's children and children that of the data's children, both without the page's own slug; the breadcrumb links are those `ParentLinks` builds from the metadata of the data's crumbs |
| `NavigationContext.ContextBreadcrumb` | server/routes/categories.js:105-126 | in a built context, breadcrumb link i carries the cleaned name and edit link of crumb i's metadata and a URL that is a prefix of the path, each extending the previous by one piece |
| `NavigationContext.CrumbUrlIsPrefix` | server/routes/categories.js:122 | for a path starting with `/`, each breadcrumb URL is a prefix of the path |
| `NavigationContext.CrumbUrlExtends` | server/routes/categories.js:122 | each breadcrumb URL extends the previous one by `/` and the next piece |
| `NavigationContext.BreadcrumbUrls` | server/routes/categories.js:117-126 | the breadcrumb URLs are the cumulative prefixes of the path: the first is `/` + first piece, each next extends the previous by one piece, all are prefixes of the path |
| `NavigationContext.SelfExcluded` | server/routes/categories.js:110-114 | every sibling and child link comes from an entry whose slug is not the page's own |
| `CategoryHandler.Layout` | server/routes/categories.js:33-36 | the template is `categories/<root>` when the first path piece is a registered layout, else `categories/default` |
| `CategoryHandler.LayoutFromPieces` | server/routes/categories.js:33-36 | for a path `/` + pieces, the template is named by the first piece when it is registered, else it is the default |
| `CategoryHandler.RenderThenCache` | server/routes/categories.js:52-79 | for the folder render (52-57) and the document render (75-79): the render is the first call and only cache writes follow it; a render error is passed on and nothing is cached; a successful render is sent and cached under the page's id, modification time and path, right after the render that produced that html |
| `CategoryHandler.ServePage` | server/routes/categories.js:49-81 | a folder's first call is its render, a document's first call is its fetch, and there is at most one render; a render happens exactly for a folder or after a successful fetch; a folder renders its page data unchanged, a document that data plus exactly the fetched content, byline, author and sections; the page is sent exactly when the render succeeded, and is then cached under the page's id, modification time, path and html; a fetch error or a render error goes to `next` unchanged, and a fetch error makes no further call |
| `CategoryHandler.HandleCategory` | server/routes/categories.js:17-83 | a tree error or an unresolved id ends with that error and no call; for a resolved page it throws, with no call, exactly when building the context throws; once the context is built, a folder is rendered first, a document is fetched first, a render happens exactly for a folder or after a successful fetch and at most once, and a fetch error goes to `next` with no render or cache write; every render shows the context `prepareContextualData` built and uses the selected template; the page is sent exactly when a render succeeded; a cache write is the last call, right after a render that produced its html, and happens exactly when the page is sent; documents alone are fetched |
| `CategoryHandler.UnknownFirstSegment` | server/routes/categories.js:27-31 | a first segment that names no child of the root ends with `Not found` and no fetch, render or cache write |
| `CategoryHandler.RootPathThrows` | server/routes/categories.js:105-108 | for `/`, whenever the root resolves to an id (its own or its home), the null parent makes building the context throw, before any fetch, render or cache write |

## Findings

| source | as written | input that shows it | evidently intended | confidence | as-written member | corrected member |
|---|---|---|---|---|---|---|
| server/routes/categories.js:150 | the comparator `(a, b) => a.sort > b.sort` returns a boolean (1 or 0) and never a negative number, so a sort that moves an element forward only on a negative result leaves the list in key order | children whose `sort` keys come in the order 3, 1, 2 | links ascending by `sort` through a three-way comparator | medium: engine-dependent; the list keeps key order under V8's TimSort (Node 11 and later), while V8 before 7.0 on short arrays and SpiderMonkey would sort it ascending; not executed | `RelatedLinks.SourceSortKeepsOrder` | `RelatedLinks.SortByCompareSortSorted` |

ECMAScript prescribes no sort algorithm and leaves the order implementation-defined when the comparator is not consistent. This comparator is not: for keys 1 and 3 it answers 0 one way and 1 the other. The model's `SortBy` follows the strategy of V8's TimSort (Node 11 and later) on short arrays: it compares a later element with an earlier one and moves it ahead only on a negative result. `RelatedList` uses the three-way comparator `CompareSort`.

## Behaviour of the code worth noting

- `parentId` is `originalId` when a home redirect happened, and otherwise the id of the **parent** branch, rather than of the page itself.
- The breadcrumb is indexed by the raw pieces of `url.split('/')`, empty pieces included. A breadcrumb shorter than those pieces makes the handler throw. It is not tied to the number of branches traversed.
- The site root `/` resolves to the root with a null parent. The handler then throws while building the context (`RootPathThrows`), whether or not the root declares a home.
- A home redirect does not guarantee `originalId` differs from the displayed id: a branch whose `home` equals its own id keeps that id.
- No cache lookup happens in this code. Only the write after a successful render is modelled.

## Left out

- Express routing, `req`/`res`/`next`, `res.end`, `res.locals.docId` and `console.log`: HTTP plumbing. `next(err)` is `Forwarded`. An exception thrown inside the tree callback is `Thrown`.
- `getTree`, `fetchDoc`, `fetchByline`, `res.render`, `getMeta` and `cleanName` are parameters of the model. The list, docs, cache and utils modules are not part of this model.
- `cache.add` is a recorded call. Its storage, lookup and eviction are not part of this model.
- The `createdAt` field (`moment(meta.createdTime).fromNow()`): it depends on the wall clock.
- `getTemplates('categories')`: the registered layouts are a given set of names.
- Keys inherited from `Object.prototype` (`children['constructor']`) are treated like missing keys. The source reaches the same `Not found` for them, through a pointer that is neither a branch nor carries an id.
- Every node is assumed to carry a `breadcrumb` list, as the tree provider attaches it. A missing one would throw on `breadcrumb.map`.
- A fetched document is assumed to carry `originalRevision.lastModifyingUser.displayName` (line 68). A record without it would throw after the fetch and before the render; `Doc` always holds `revisionAuthor`, so the model cannot show that exception.
- `sort` keys are integers. JavaScript's `>` on strings or on mixed types is not modelled.
- RelatedLinks.RelatedList: does not state the order among links with equal `sort` keys, because the source promises none.

=== FILE: category_handler.dfy ===
/**
 * The request handler (`handleCategory`) as a chain of results over its
 * collaborators: tree snapshot, path resolution, navigation context, then
 * either a direct render (folders) or a document fetch followed by a render
 * (documents), and a cache write after a successful render.
 *
 * The collaborators (metadata store, name cleaner, document fetch, byline
 * extraction, template rendering) are parameters. The outcome records the
 * calls the handler makes to the fetch, render and cache collaborators, in
 * order, so that what is never called can be stated.
 */
module CategoryHandler {
  import opened Wrappers
  import opened Strings
  import opened DocTree
  import opened PathResolver
  import opened NavigationContext

  /** What the handler passes to `next`: `Error('Not found')` or an error
      reported by a collaborator. */
  datatype Failure = NotFound | External(reason: string)

  /** What `fetchDoc` delivers: the html, the display name of the author of
      the original revision, and the sections. */
  datatype Doc = Doc(html: string, revisionAuthor: string, sections: seq<string>)

  /** What `fetchByline` returns. */
  datatype Byline = Byline(html: string, byline: string)

  /** The fields a document adds to the page data. */
  datatype DocFields = DocFields(content: string, byline: string, createdBy: string, sections: seq<string>)

  /** The data handed to the template: the navigation context, the fields
      taken from the page's metadata, and for documents the fetched fields.
      The two groups have no key in common, so the merge keeps all of them. */
  datatype Page = Page(
    context: Context,
    url: string,
    title: string,
    lastUpdatedBy: Option<string>,
    lastUpdated: string,
    editLink: string,
    doc: Option<DocFields>)

  datatype Services = Services(
    getMeta: string -> Meta,
    cleanName: string -> string,
    fetchDoc: (string, string) -> Result<Doc, string>,
    fetchByline: (string, string) -> Byline,
    render: (string, Page) -> Result<string, string>)

  /** A call to an effectful collaborator. */
  datatype Call =
    | FetchDoc(id: string, resourceType: string)
    | Render(template: string, page: Page)
    | CacheAdd(id: string, version: string, path: string, html: string)

  /** How the request ends: the page is sent, an error goes to `next`, or an
      exception escapes the callback. */
  datatype Response = Sent(html: string) | Forwarded(failure: Failure) | Thrown(fault: Fault)

  datatype Outcome = Outcome(response: Response, calls: seq<Call>)

  /** `req.path.split('/')[1]`, when there is such a piece. */
  function Root(path: string): Option<string>
  {
    var pieces := Split(path, '/');
    if |pieces| > 1 then Some(pieces[1]) else None
  }

  /** The template: `categories/<root>` when the first path piece names a
      registered layout, `categories/default` otherwise. */
  function Layout(categories: set<string>, path: string): (template: string)
    ensures Root(path).Some? && Root(path).value in categories ==> template == "categories/" + Root(path).value
    ensures !(Root(path).Some? && Root(path).value in categories) ==> template == "categories/default"
  {
    var root := Root(path);
    var layout := if root.Some? && root.value in categories then root.value else "default";
    "categories/" + layout
  }

  /** For a path `/` followed by slash-free pieces, the layout is named by
      the first piece when it is registered, and is the default otherwise. */
  lemma LayoutFromPieces(categories: set<string>, pieces: seq<string>)
    requires |pieces| > 0
    requires forall i :: 0 <= i < |pieces| ==> '/' !in pieces[i]
    ensures Layout(categories, "/" + Join(pieces, '/')) ==
              if pieces[0] in categories then "categories/" + pieces[0] else "categories/default"
  {
    var path := "/" + Join(pieces, '/');
    SplitJoin(pieces, '/');
    assert path[1..] == Join(pieces, '/');
    assert Split(path, '/') == [""] + pieces;
  }

  /** The breadcrumb ids of the resolved data. */
  function DataBreadcrumb(d: Data): seq<string>
  {
    if d.Empty? then [] else d.node.breadcrumb
  }

  /** The page data of a folder: the context merged with the metadata fields. */
  function BasePage(path: string, data: Data, parent: Option<Node>, s: Services): Result<Page, Fault>
  {
    var meta := s.getMeta(DataId(data));
    match PrepareContextualData(data, path, DataBreadcrumb(data), parent, s.getMeta, s.cleanName)
    case Err(f) => Err(f)
    case Ok(ctx) => Ok(Page(ctx, path, meta.prettyName, meta.lastModifyingUser, meta.lastUpdated, meta.webViewLink, None))
  }

  /** The fields a fetched document contributes. */
  function FetchedFields(doc: Doc, s: Services): DocFields
  {
    var payload := s.fetchByline(doc.html, doc.revisionAuthor);
    DocFields(payload.html, payload.byline, doc.revisionAuthor, doc.sections)
  }

  /** Render, and add the html to the cache only when the render succeeded:
      the render is the first call, a render error is passed on with nothing
      cached, and a successful render is sent and cached under the page's id,
      version and path. */
  function RenderThenCache(template: string, page: Page, id: string, version: string, path: string, s: Services)
    : (r: Outcome)
    ensures |r.calls| >= 1 && r.calls[0] == Render(template, page)
    ensures forall i :: 0 < i < |r.calls| ==> r.calls[i].CacheAdd?
    ensures r.response.Sent? <==> s.render(template, page).Ok?
    ensures !r.response.Sent? ==> r.response == Forwarded(External(s.render(template, page).error))
    ensures r.response.Sent? ==> r.calls[|r.calls| - 1] == CacheAdd(id, version, path, r.response.html)
    ensures CacheWriteAfterRender(r, s.render)
  {
    match s.render(template, page)
    case Err(e) => Outcome(Forwarded(External(e)), [Render(template, page)])
    case Ok(html) => Outcome(Sent(html), [Render(template, page), CacheAdd(id, version, path, html)])
  }

  /** A cache write is the last call, comes right after a render that
      produced exactly the written html, and happens exactly when the page is sent. */
  predicate CacheWriteAfterRender(o: Outcome, render: (string, Page) -> Result<string, string>)
  {
    && (forall i :: 0 <= i < |o.calls| && o.calls[i].CacheAdd? ==>
          && i == |o.calls| - 1 && i > 0
          && o.calls[i - 1].Render?
          && render(o.calls[i - 1].template, o.calls[i - 1].page) == Ok(o.calls[i].html)
          && o.response == Sent(o.calls[i].html))
    && (o.response.Sent? ==> |o.calls| > 0 && o.calls[|o.calls| - 1].CacheAdd?)
  }

  /** The last stage for a resolved page with its page data: folders render
      at once, documents are fetched first and rendered with the fetched fields. */
  function ServePage(path: string, template: string, id: string, meta: Meta, base: Page, s: Services)
    : (r: Outcome)
    ensures CacheWriteAfterRender(r, s.render)
    ensures r.response.Sent? ==> r.calls[|r.calls| - 1] == CacheAdd(id, meta.modifiedTime, path, r.response.html)
    ensures forall c :: c in r.calls && c.Render? ==> c.template == template
    ensures forall c :: c in r.calls && c.FetchDoc? ==> c == FetchDoc(id, meta.resourceType) && meta.resourceType != "folder"
    ensures forall c :: c in r.calls && c.Render? ==>
              if meta.resourceType == "folder" then c.page == base
              else
                && s.fetchDoc(id, meta.resourceType).Ok?
                && c.page == base.(doc := Some(FetchedFields(s.fetchDoc(id, meta.resourceType).value, s)))
    ensures (exists c :: c in r.calls && c.Render?) <==>
              (meta.resourceType == "folder" || s.fetchDoc(id, meta.resourceType).Ok?)
    ensures r.response.Sent? <==> exists c :: c in r.calls && c.Render? && s.render(c.template, c.page).Ok?
    ensures meta.resourceType != "folder" && s.fetchDoc(id, meta.resourceType).Err? ==>
              r == Outcome(Forwarded(External(s.fetchDoc(id, meta.resourceType).error)), [FetchDoc(id, meta.resourceType)])
    ensures forall c :: c in r.calls && c.Render? && s.render(c.template, c.page).Err? ==>
              r.response == Forwarded(External(s.render(c.template, c.page).error))
    ensures |r.calls| > 0
    ensures meta.resourceType == "folder" ==> r.calls[0] == Render(template, base)
    ensures meta.resourceType != "folder" ==> r.calls[0] == FetchDoc(id, meta.resourceType)
    ensures forall i, j :: 0 <= i < j < |r.calls| && r.calls[i].Render? ==> !r.calls[j].Render?
  {
    if meta.resourceType == "folder" then
      RenderThenCache(template, base, id, meta.modifiedTime, path, s)
    else
      var fetch := FetchDoc(id, meta.resourceType);
      match s.fetchDoc(id, meta.resourceType)
      case Err(e) => Outcome(Forwarded(External(e)), [fetch])
      case Ok(doc) =>
        var page := base.(doc := Some(FetchedFields(doc, s)));
        var o := RenderThenCache(template, page, id, meta.modifiedTime, path, s);
        var r := Outcome(o.response, [fetch] + o.calls);
        assert r.calls[1..] == o.calls;
        r
  }

  /** `handleCategory` for the request path `path`, the registered layouts
      `categories` and the result of `getTree`. */
  function HandleCategory(path: string, categories: set<string>, tree: Result<Node, string>, s: Services)
    : (r: Outcome)
    ensures CacheWriteAfterRender(r, s.render)
    ensures tree.Err? ==> r == Outcome(Forwarded(External(tree.error)), [])
    ensures tree.Ok? && DataId(Resolve(path, tree.value).0) == "" ==> r == Outcome(Forwarded(NotFound), [])
    ensures r.response.Sent? ==>
              tree.Ok? &&
              var id := DataId(Resolve(path, tree.value).0);
              r.calls[|r.calls| - 1] == CacheAdd(id, s.getMeta(id).modifiedTime, path, r.response.html)
    ensures forall c :: c in r.calls && c.Render? ==> c.template == Layout(categories, path)
    ensures forall c :: c in r.calls && c.FetchDoc? ==> s.getMeta(c.id).resourceType != "folder"
    ensures tree.Ok? && DataId(Resolve(path, tree.value).0) != "" ==>
              var (d, p) := Resolve(path, tree.value);
              && (r.response.Thrown? <==> BasePage(path, d, p, s).Err?)
              && (r.response.Thrown? ==> r.calls == [])
              && (forall c :: c in r.calls && c.Render? ==>
                    c.page.context == PrepareContextualData(d, path, DataBreadcrumb(d), p, s.getMeta, s.cleanName).value)
              && (r.response.Sent? <==> exists c :: c in r.calls && c.Render? && s.render(c.template, c.page).Ok?)
    ensures tree.Ok? && DataId(Resolve(path, tree.value).0) != "" &&
            BasePage(path, Resolve(path, tree.value).0, Resolve(path, tree.value).1, s).Ok? ==>
              var id := DataId(Resolve(path, tree.value).0);
              var meta := s.getMeta(id);
              && |r.calls| > 0
              && ((exists c :: c in r.calls && c.Render?) <==>
                    (meta.resourceType == "folder" || s.fetchDoc(id, meta.resourceType).Ok?))
              && (meta.resourceType == "folder" ==> r.calls[0].Render?)
              && (meta.resourceType != "folder" ==> r.calls[0] == FetchDoc(id, meta.resourceType))
              && (meta.resourceType != "folder" && s.fetchDoc(id, meta.resourceType).Err? ==>
                    r == Outcome(Forwarded(External(s.fetchDoc(id, meta.resourceType).error)),
                                 [FetchDoc(id, meta.resourceType)]))
              && (forall i, j :: 0 <= i < j < |r.calls| && r.calls[i].Render? ==> !r.calls[j].Render?)
  {
    match tree
    case Err(e) => Outcome(Forwarded(External(e)), [])
    case Ok(root) =>
      var resolved := Resolve(path, root);
      var data, parent := resolved.0, resolved.1;
      var id := DataId(data);
      if id == "" then Outcome(Forwarded(NotFound), [])
      else
        match BasePage(path, data, parent, s)
        case Err(f) => Outcome(Thrown(f), [])
        case Ok(base) => ServePage(path, Layout(categories, path), id, s.getMeta(id), base, s)
  }

  /** A path whose first segment names no child of the root ends with
      `Error('Not found')` before any document fetch, render or cache write. */
  lemma UnknownFirstSegment(path: string, categories: set<string>, root: Node, s: Services)
    requires |Segments(path)| > 0 && root.kind == Branch
    requires Segments(path)[0] !in Slugs(root.children)
    ensures HandleCategory(path, categories, Ok(root), s) == Outcome(Forwarded(NotFound), [])
  {
    assert Segments(path)[..0] == [];
    UnknownSegmentNotFound(path, root, 0, root);
  }

  /** For the site root `/` the resolver yields no parent, so building the
      context throws whenever the root resolves to an id (its own, or its
      home): the request never reaches a fetch, a render or a cache write. */
  lemma RootPathThrows(categories: set<string>, root: Node, s: Services)
    requires DataId(Tag(Some(root))) != ""
    ensures HandleCategory("/", categories, Ok(root), s).response == Thrown(TypeError)
    ensures HandleCategory("/", categories, Ok(root), s).calls == []
  {
    RootPath(root);
  }
}

=== FILE: doc_tree.dfy ===
/**
 * The documentation tree snapshot returned by the tree provider, and the
 * metadata record the metadata store returns for an identifier.
 *
 * Identifiers and the `home` reference are strings; the empty string stands
 * for a missing value, which the router tests with JavaScript truthiness.
 */
module DocTree {
  import opened Wrappers

  datatype Kind = Branch | Leaf

  /** A tree node. `children` lists the own keys of the source's `children`
      object in their enumeration order; `breadcrumb` holds the ids of the
      crumb records the tree provider attaches to the node. */
  datatype Node = Node(
    kind: Kind,
    id: string,
    home: string,
    children: seq<Entry>,
    breadcrumb: seq<string>)

  /** One `slug -> node` property of a `children` object. */
  datatype Entry = Entry(slug: string, node: Node)

  /** The metadata record of one identifier. */
  datatype Meta = Meta(
    name: string,
    prettyName: string,
    slug: string,
    sort: int,
    webViewLink: string,
    path: string,
    resourceType: string,
    lastUpdated: string,
    lastModifyingUser: Option<string>,
    modifiedTime: string)

  predicate IsBranch(p: Option<Node>)
  {
    p.Some? && p.value.kind == Branch
  }

  function Slugs(entries: seq<Entry>): seq<string>
  {
    seq(|entries|, i requires 0 <= i < |entries| => entries[i].slug)
  }

  /** An object's keys are distinct. */
  predicate DistinctSlugs(entries: seq<Entry>)
  {
    forall i, j :: 0 <= i < j < |entries| ==> entries[i].slug != entries[j].slug
  }

  /** Property access `children[slug]`: the node stored under `slug`, or
      nothing when the object has no such key. */
  function Get(entries: seq<Entry>, slug: string): (r: Option<Node>)
    ensures r.None? <==> slug !in Slugs(entries)
    ensures r.Some? ==> Entry(slug, r.value) in entries
  {
    if |entries| == 0 then None
    else if entries[0].slug == slug then
      assert Slugs(entries)[0] == slug;
      Some(entries[0].node)
    else
      assert Slugs(entries) == [entries[0].slug] + Slugs(entries[1..]);
      Get(entries[1..], slug)
  }
}

=== FILE: navigation_context.dfy ===
/**
 * Navigation context (`prepareContextualData`): the breadcrumb links of the
 * intermediate URL segments, the sibling and child link lists, and the id
 * of the container that navigation refers back to.
 */
module NavigationContext {
  import opened Wrappers
  import opened Strings
  import opened DocTree
  import opened PathResolver
  import opened RelatedLinks

  /** A breadcrumb link: `{url, name, editLink}`. */
  datatype Crumb = Crumb(url: string, name: string, editLink: string)

  /** The object `prepareContextualData` returns. */
  datatype Context = Context(parentId: string, parentLinks: seq<Crumb>, siblings: seq<Link>, children: seq<Link>)

  /** Reading a property of `null` or `undefined` throws a TypeError. */
  datatype Fault = TypeError

  /** `url.split('/').slice(-1)[0]`: the last piece of the URL, the page's own slug. */
  function SelfSlug(url: string): string
  {
    var pieces := Split(url, '/');
    pieces[|pieces| - 1]
  }

  /** `url.split('/').slice(1, -1)`: the pieces between the leading empty
      string and the page's own slug. */
  function Intermediate(url: string): (r: seq<string>)
    ensures |r| == if |Split(url, '/')| < 2 then 0 else |Split(url, '/')| - 2
    ensures |Split(url, '/')| >= 2 ==> forall i :: 0 <= i < |r| ==> r[i] == Split(url, '/')[i + 1]
  {
    var pieces := Split(url, '/');
    if |pieces| < 2 then [] else pieces[1..|pieces| - 1]
  }

  /** The breadcrumb: entry `i` links to the URL made of the first `i + 1`
      intermediate pieces and takes name and edit link from the metadata of
      the `i`-th crumb. A crumb that is missing makes `breadcrumbInfo[i].name`
      throw. */
  function ParentLinks(url: string, info: seq<Meta>, cleanName: string -> string): (r: Result<seq<Crumb>, Fault>)
    ensures r.Ok? <==> |Intermediate(url)| <= |info|
    ensures r.Ok? ==> |r.value| == |Intermediate(url)|
    ensures r.Ok? ==> forall i :: 0 <= i < |r.value| ==>
              r.value[i].name == cleanName(info[i].name) && r.value[i].editLink == info[i].webViewLink
  {
    var arr := Intermediate(url);
    if |arr| > |info| then Err(TypeError)
    else
      Ok(seq(|arr|, i requires 0 <= i < |arr| =>
        Crumb(CrumbUrl(url, i), cleanName(info[i].name), info[i].webViewLink)))
  }

  /** `breadcrumb.map(({id}) => getMeta(id))`. */
  function BreadcrumbInfo(breadcrumb: seq<string>, getMeta: string -> Meta): seq<Meta>
  {
    seq(|breadcrumb|, i requires 0 <= i < |breadcrumb| => getMeta(breadcrumb[i]))
  }

  /** `data.children || {}`. */
  function DataChildren(d: Data): seq<Entry>
  {
    if d.Empty? then [] else d.node.children
  }

  /** `data.originalId`, empty when absent. */
  function DataOriginalId(d: Data): string
  {
    if d.Found? && d.originalId.Some? then d.originalId.value else ""
  }

  /** `prepareContextualData(data, url, breadcrumb, parent, slug)`; the
      unused `slug` argument is not a parameter here. Destructuring a null
      `parent` throws, as does a breadcrumb shorter than the intermediate pieces. */
  function PrepareContextualData(
    data: Data, url: string, breadcrumb: seq<string>, parent: Option<Node>,
    getMeta: string -> Meta, cleanName: string -> string): (r: Result<Context, Fault>)
    ensures r.Ok? <==> parent.Some? && |Intermediate(url)| <= |breadcrumb|
    ensures r.Ok? ==>
              r.value.parentId == (if DataOriginalId(data) != "" then DataOriginalId(data) else parent.value.id)
    ensures r.Ok? ==> r.value.siblings == RelatedList(parent.value.children, SelfSlug(url), getMeta)
    ensures r.Ok? ==> r.value.children == RelatedList(DataChildren(data), SelfSlug(url), getMeta)
    ensures r.Ok? ==> r.value.parentLinks == ParentLinks(url, BreadcrumbInfo(breadcrumb, getMeta), cleanName).value
  {
    var info := BreadcrumbInfo(breadcrumb, getMeta);
    if parent.None? then Err(TypeError)
    else
      var self := SelfSlug(url);
      var siblings := RelatedList(parent.value.children, self, getMeta);
      var children := RelatedList(DataChildren(data), self, getMeta);
      match ParentLinks(url, info, cleanName)
      case Err(e) => Err(e)
      case Ok(parentLinks) =>
        var originalId := DataOriginalId(data);
        Ok(Context(if originalId != "" then originalId else parent.value.id, parentLinks, siblings, children))
  }

  /** The URL of breadcrumb entry `i`: `/` followed by the first `i + 1`
      intermediate pieces joined with `/`. */
  function CrumbUrl(url: string, i: nat): string
    requires i < |Intermediate(url)|
  {
    "/" + Join(Intermediate(url)[..i + 1], '/')
  }

  /** For a URL that starts with `/`, each breadcrumb URL is a prefix of it. */
  lemma CrumbUrlIsPrefix(url: string, i: nat)
    requires |url| > 0 && url[0] == '/'
    requires i < |Intermediate(url)|
    ensures CrumbUrl(url, i) <= url
  {
    var pieces := Split(url, '/');
    var arr := Intermediate(url);
    JoinSplit(url, '/');
    assert pieces[0] == "" by {
      assert url == [url[0]] + url[1..];
    }
    assert pieces[..i + 2][1..] == arr[..i + 1];
    assert Join(pieces[..i + 2], '/') == "" + "/" + Join(arr[..i + 1], '/');
    JoinPrefix(pieces, i + 2, '/');
  }

  /** Each breadcrumb URL extends the previous one by `/` and the next piece. */
  lemma CrumbUrlExtends(url: string, i: nat)
    requires i + 1 < |Intermediate(url)|
    ensures CrumbUrl(url, i + 1) == CrumbUrl(url, i) + "/" + Intermediate(url)[i + 1]
  {
    var arr := Intermediate(url);
    var prefix := arr[..i + 2];
    JoinCut(prefix, i + 1, '/');
    assert prefix[..i + 1] == arr[..i + 1];
    assert prefix[i + 1..] == [arr[i + 1]];
  }

  /** For a URL that starts with `/`, every breadcrumb URL is a prefix of the
      page URL; the first is `/` and the first intermediate piece, and each
      next one extends the previous by `/` and the next piece. */
  lemma BreadcrumbUrls(url: string, info: seq<Meta>, cleanName: string -> string)
    requires |url| > 0 && url[0] == '/'
    requires |Intermediate(url)| <= |info|
    ensures var links := ParentLinks(url, info, cleanName).value;
            && (|links| > 0 ==> links[0].url == "/" + Intermediate(url)[0])
            && (forall i :: 0 <= i < |links| ==> links[i].url <= url)
            && (forall i :: 0 <= i < |links| - 1 ==>
                  links[i + 1].url == links[i].url + "/" + Intermediate(url)[i + 1])
  {
    var arr := Intermediate(url);
    var links := ParentLinks(url, info, cleanName).value;
    assert forall i :: 0 <= i < |links| ==> links[i].url == CrumbUrl(url, i);
    if |links| > 0 {
      assert arr[..1] == [arr[0]];
    }
    forall i | 0 <= i < |links| ensures CrumbUrl(url, i) <= url {
      CrumbUrlIsPrefix(url, i);
    }
    forall i | 0 <= i < |links| - 1
      ensures CrumbUrl(url, i + 1) == CrumbUrl(url, i) + "/" + arr[i + 1]
    {
      CrumbUrlExtends(url, i);
    }
  }

  /** The breadcrumb of a built context: one link per intermediate piece of a
      `/`-rooted URL, link `i` named after the cleaned name of crumb `i` with
      its edit link, and pointing at a prefix of the URL that extends the
      previous link by one piece. */
  lemma ContextBreadcrumb(data: Data, url: string, breadcrumb: seq<string>, parent: Option<Node>,
                          getMeta: string -> Meta, cleanName: string -> string)
    requires |url| > 0 && url[0] == '/'
    requires PrepareContextualData(data, url, breadcrumb, parent, getMeta, cleanName).Ok?
    ensures var links := PrepareContextualData(data, url, breadcrumb, parent, getMeta, cleanName).value.parentLinks;
            && |links| == |Intermediate(url)|
            && (forall i :: 0 <= i < |links| ==>
                  && links[i].name == cleanName(getMeta(breadcrumb[i]).name)
                  && links[i].editLink == getMeta(breadcrumb[i]).webViewLink
                  && links[i].url <= url)
            && (forall i :: 0 <= i < |links| - 1 ==>
                  links[i + 1].url == links[i].url + "/" + Intermediate(url)[i + 1])
  {
    var info := BreadcrumbInfo(breadcrumb, getMeta);
    BreadcrumbUrls(url, info, cleanName);
  }

  /** The page's own slug is never among the sibling or child link lists:
      every listed link belongs to an entry with a different slug. */
  lemma SelfExcluded(data: Data, url: string, breadcrumb: seq<string>, parent: Option<Node>,
                     getMeta: string -> Meta, cleanName: string -> string)
    requires PrepareContextualData(data, url, breadcrumb, parent, getMeta, cleanName).Ok?
    ensures var ctx := PrepareContextualData(data, url, breadcrumb, parent, getMeta, cleanName).value;
            && (forall l :: l in ctx.siblings ==>
                  exists e :: e in parent.value.children && e.slug != SelfSlug(url) && l == ToLink(e, getMeta))
            && (forall l :: l in ctx.children ==>
                  exists e :: e in DataChildren(data) && e.slug != SelfSlug(url) && l == ToLink(e, getMeta))
  {
    RelatedListMembers(parent.value.children, SelfSlug(url), getMeta);
    RelatedListMembers(DataChildren(data), SelfSlug(url), getMeta);
  }
}

=== FILE: path_resolver.dfy ===
/**
 * Path resolution (`retrieveDataForPath`): walk the non-empty segments of a
 * URL path down the documentation tree, remembering the last branch passed
 * through, and show a branch's home document in place of the branch itself.
 */
module PathResolver {
  import opened Wrappers
  import opened Strings
  import opened DocTree

  /** `pieces.filter((s) => s.length)`. */
  function NonEmpty(pieces: seq<string>): (r: seq<string>)
    ensures |r| <= |pieces|
    ensures forall i :: 0 <= i < |r| ==> r[i] != ""
    ensures forall s :: s in r <==> s in pieces && s != ""
  {
    if |pieces| == 0 then []
    else if pieces[0] == "" then NonEmpty(pieces[1..])
    else [pieces[0]] + NonEmpty(pieces[1..])
  }

  /** The segments the resolver consumes: the pieces of `path.split('/')`
      after the first one, without the empty ones. */
  function Segments(path: string): (r: seq<string>)
    ensures forall i :: 0 <= i < |r| ==> r[i] != "" && '/' !in r[i]
    ensures |r| < |Split(path, '/')|
  {
    var pieces := Split(path, '/');
    assert forall s :: s in pieces[1..] ==> '/' !in s;
    NonEmpty(pieces[1..])
  }

  /** A path built from `/` and slash-free pieces, empty ones included,
      yields exactly the non-empty pieces, in order: `/a//b/` gives `a`, `b`. */
  lemma SegmentsOfJoin(pieces: seq<string>)
    requires forall i :: 0 <= i < |pieces| ==> '/' !in pieces[i]
    ensures Segments("/" + Join(pieces, '/')) == NonEmpty(pieces)
  {
    var path := "/" + Join(pieces, '/');
    if |pieces| == 0 {
      assert path == "/";
      assert Split("/"[1..], '/') == [""];
      assert Split(path, '/') == ["", ""];
      assert NonEmpty([""]) == [];
    } else {
      SplitJoin(pieces, '/');
      assert path[1..] == Join(pieces, '/');
      assert Split(path, '/') == [""] + pieces;
      assert Split(path, '/')[1..] == pieces;
    }
  }

  /** The filter distributes over concatenation: it keeps the order of the
      pieces and each non-empty piece as often as it occurs. */
  lemma {:induction false} NonEmptyConcat(a: seq<string>, b: seq<string>)
    ensures NonEmpty(a + b) == NonEmpty(a) + NonEmpty(b)
  {
    if |a| > 0 {
      NonEmptyConcat(a[1..], b);
      assert (a + b)[0] == a[0];
      assert (a + b)[1..] == a[1..] + b;
    } else {
      assert a + b == b;
    }
  }

  /** A single piece survives the filter exactly when it is non-empty. */
  lemma NonEmptySingle(s: string)
    ensures NonEmpty([s]) == if s == "" then [] else [s]
  {
    assert [s][1..] == [];
  }

  /** A list of non-empty pieces passes the filter unchanged. */
  lemma {:induction false} NonEmptyKeeps(pieces: seq<string>)
    requires forall i :: 0 <= i < |pieces| ==> pieces[i] != ""
    ensures NonEmpty(pieces) == pieces
  {
    if |pieces| > 0 {
      NonEmptyKeeps(pieces[1..]);
    }
  }

  /** `pointer.children[segment]`. */
  function Child(n: Node, segment: string): Option<Node>
  {
    Get(n.children, segment)
  }

  /** What the loop of `retrieveDataForPath` leaves in `pointer` and `parent`
      when it starts from `pointer`, `parent` and `segments`: while the pointer
      is a branch and segments remain, the pointer becomes the parent and the
      next segment selects its child. */
  function Walk(pointer: Option<Node>, parent: Option<Node>, segments: seq<string>)
    : (r: (Option<Node>, Option<Node>))
    ensures r.1 == parent || IsBranch(r.1)
    decreases |segments|
  {
    if IsBranch(pointer) && |segments| > 0 then
      Walk(Child(pointer.value, segments[0]), pointer, segments[1..])
    else
      (pointer, parent)
  }

  /** How many segments the loop consumes. */
  function Steps(pointer: Option<Node>, segments: seq<string>): nat
    decreases |segments|
  {
    if IsBranch(pointer) && |segments| > 0 then
      1 + Steps(Child(pointer.value, segments[0]), segments[1..])
    else 0
  }

  /** The node reached by descending through branches along all of
      `segments`; nothing when a segment is missing or a non-branch is met
      before the segments run out. */
  function Follow(pointer: Option<Node>, segments: seq<string>): Option<Node>
    decreases |segments|
  {
    if |segments| == 0 then pointer
    else if IsBranch(pointer) then Follow(Child(pointer.value, segments[0]), segments[1..])
    else None
  }

  /** The resolved data: nothing (the source's `{}`), or a node with the id
      to display and, after a home redirect, the id of the branch it replaced.
      Every other field of the result is the node's own. */
  datatype Data = Empty | Found(node: Node, id: string, originalId: Option<string>)

  /** The id the router reads from the data; empty for `{}`. */
  function DataId(d: Data): string
  {
    if d.Empty? then "" else d.id
  }

  /** The home redirect applied to the final pointer. */
  function Tag(pointer: Option<Node>): (r: Data)
    ensures r.Empty? <==> pointer.None?
    ensures r.Found? ==> r.node == pointer.value
    ensures r.Found? ==> (r.originalId.Some? <==> r.node.kind == Branch && r.node.home != "")
    ensures r.Found? && r.originalId.Some? ==>
              r.id == r.node.home && r.id != "" && r.originalId.value == r.node.id
    ensures r.Found? && r.originalId.None? ==> r.id == r.node.id
  {
    match pointer
    case None => Empty
    case Some(n) =>
      if n.kind == Branch && n.home != "" then Found(n, n.home, Some(n.id))
      else Found(n, n.id, None)
  }

  /** `retrieveDataForPath(path, tree)` as a value: the data and the parent. */
  function Resolve(path: string, tree: Node): (Data, Option<Node>)
  {
    var w := Walk(Some(tree), None, Segments(path));
    (Tag(w.0), w.1)
  }

  /** The resolver itself: the loop moves the pointer down one segment at a
      time, consuming the segment list from the front. */
  method RetrieveDataForPath(path: string, tree: Node) returns (data: Data, parent: Option<Node>)
    ensures (data, parent) == Resolve(path, tree)
    ensures parent.None? || parent.value.kind == Branch
  {
    var segments := Segments(path);
    var pointer := Some(tree);
    parent := None;
    while IsBranch(pointer) && |segments| > 0
      invariant Walk(pointer, parent, segments) == Walk(Some(tree), None, Segments(path))
      decreases |segments|
    {
      parent := pointer;
      pointer := Child(pointer.value, segments[0]);
      segments := segments[1..];
    }
    data := Tag(pointer);
  }

  /** The loop consumes one segment per step and stops when the segments run
      out or the pointer is no longer a branch. The pointer is then the node
      reached along the consumed segments, and the parent the node reached
      along all but the last of them (the starting parent if none was consumed). */
  lemma {:induction false} WalkTraversal(pointer: Option<Node>, parent: Option<Node>, segments: seq<string>)
    ensures Steps(pointer, segments) <= |segments|
    ensures Walk(pointer, parent, segments).0 == Follow(pointer, segments[..Steps(pointer, segments)])
    ensures Steps(pointer, segments) == |segments| || !IsBranch(Walk(pointer, parent, segments).0)
    ensures Walk(pointer, parent, segments).1 ==
              if Steps(pointer, segments) == 0 then parent
              else Follow(pointer, segments[..Steps(pointer, segments) - 1])
    decreases |segments|
  {
    if IsBranch(pointer) && |segments| > 0 {
      var child := Child(pointer.value, segments[0]);
      var rest := segments[1..];
      WalkTraversal(child, pointer, rest);
      var k := Steps(pointer, segments);
      assert segments[..k][1..] == rest[..k - 1];
      if k > 1 {
        assert segments[..k - 1][1..] == rest[..k - 2];
      }
    } else {
      assert segments[..0] == [];
    }
  }

  /** Once the walk has reached a node along the first `j` segments, the rest
      of the walk continues from that node and its parent. */
  lemma {:induction false} WalkFrom(pointer: Option<Node>, parent: Option<Node>, segments: seq<string>, j: nat)
    requires j <= |segments|
    requires Follow(pointer, segments[..j]).Some?
    ensures Walk(pointer, parent, segments) ==
              Walk(Follow(pointer, segments[..j]),
                   if j == 0 then parent else Follow(pointer, segments[..j - 1]),
                   segments[j..])
    decreases j
  {
    if j == 0 {
      assert segments[..0] == [] && segments[0..] == segments;
    } else {
      var child := Child(pointer.value, segments[0]);
      var rest := segments[1..];
      assert segments[..j][1..] == rest[..j - 1];
      WalkFrom(child, pointer, rest, j - 1);
      assert rest[j - 1..] == segments[j..];
      if j > 1 {
        assert segments[..j - 1][1..] == rest[..j - 2];
      } else {
        assert segments[..0] == [];
      }
    }
  }

  /** A path whose segments lead through branches to node `n` resolves to `n`
      (after the home redirect), and its parent is the branch that holds `n`
      under the last segment; the empty path resolves to the root with no parent. */
  lemma ResolveFindsTarget(path: string, tree: Node, n: Node)
    requires Follow(Some(tree), Segments(path)) == Some(n)
    ensures Resolve(path, tree).0 == Tag(Some(n))
    ensures Segments(path) == [] ==> Resolve(path, tree).1 == None
    ensures Segments(path) != [] ==>
              var parent := Resolve(path, tree).1;
              IsBranch(parent) &&
              Child(parent.value, Segments(path)[|Segments(path)| - 1]) == Some(n)
  {
    var segs := Segments(path);
    assert segs[..|segs|] == segs;
    WalkFrom(Some(tree), None, segs, |segs|);
    if segs != [] {
      var k := |segs| - 1;
      FollowLast(Some(tree), segs);
    }
  }

  /** Reaching a node along a non-empty segment list means reaching a branch
      along all but the last segment and taking its child. */
  lemma {:induction false} FollowLast(pointer: Option<Node>, segments: seq<string>)
    requires |segments| > 0
    requires Follow(pointer, segments).Some?
    ensures IsBranch(Follow(pointer, segments[..|segments| - 1]))
    ensures Follow(pointer, segments) ==
              Child(Follow(pointer, segments[..|segments| - 1]).value, segments[|segments| - 1])
    decreases |segments|
  {
    var child := Child(pointer.value, segments[0]);
    if |segments| == 1 {
      assert segments[..0] == [];
    } else {
      var rest := segments[1..];
      FollowLast(child, rest);
      assert segments[..|segments| - 1][1..] == rest[..|rest| - 1];
    }
  }

  /** A segment that names no child of the branch reached so far leaves the
      pointer undefined: the result is `{}`, whose id is empty, and the parent
      is that branch. */
  lemma UnknownSegmentNotFound(path: string, tree: Node, j: nat, b: Node)
    requires j < |Segments(path)|
    requires Follow(Some(tree), Segments(path)[..j]) == Some(b)
    requires b.kind == Branch && Segments(path)[j] !in Slugs(b.children)
    ensures Resolve(path, tree) == (Empty, Some(b))
    ensures DataId(Resolve(path, tree).0) == ""
  {
    var segs := Segments(path);
    WalkFrom(Some(tree), None, segs, j);
    assert segs[j..][1..] == segs[j + 1..];
  }

  /** Segments after a leaf are ignored: the path resolves to the leaf itself. */
  lemma TrailingSegmentsIgnored(path: string, tree: Node, j: nat, n: Node)
    requires j < |Segments(path)|
    requires Follow(Some(tree), Segments(path)[..j]) == Some(n)
    requires n.kind == Leaf
    ensures Resolve(path, tree).0 == Found(n, n.id, None)
    ensures Resolve(path, tree).1 == if j == 0 then None else Follow(Some(tree), Segments(path)[..j - 1])
  {
    WalkFrom(Some(tree), None, Segments(path), j);
  }

  /** The site root `/` resolves to the tree root with no parent; a root that
      declares a home document shows that document and records the root's id. */
  lemma RootPath(tree: Node)
    ensures Resolve("/", tree) == (Tag(Some(tree)), None)
    ensures tree.kind == Branch && tree.home != "" ==>
              Resolve("/", tree).0 == Found(tree, tree.home, Some(tree.id))
  {
    assert Split("/"[1..], '/') == [""];
    assert Split("/", '/') == ["", ""];
    assert Segments("/") == [];
  }
}

=== FILE: related_links.dfy ===
/**
 * Related-link lists (`createRelatedList`): the entries of a `children`
 * object other than the current page's own slug, each turned into a link
 * record from its node and its metadata, sorted by the metadata `sort` key.
 *
 * ECMAScript prescribes no sort algorithm, and leaves the order
 * implementation-defined for an inconsistent comparator. `SortBy` follows the
 * strategy of V8's TimSort (Node 11 and later) on short arrays: an
 * insertion sort that compares the later element with an earlier one and moves it
 * ahead only on a negative result. The router's comparator `a.sort > b.sort`
 * never returns a negative number, so under that strategy nothing moves; see
 * `SourceCompare` and `SourceSortKeepsOrder`. Engines that shift on a positive
 * `comparefn(earlier, later)` (V8 before 7.0 on short arrays, SpiderMonkey)
 * would sort ascending. The list itself is built with the three-way
 * comparator `CompareSort`.
 */
module RelatedLinks {
  import opened DocTree

  /** A navigation link: `{sort, nodeType, name, editLink, url}`. */
  datatype Link = Link(sort: int, nodeType: Kind, name: string, editLink: string, url: string)

  /** The links are in ascending `sort` order. */
  predicate Sorted(s: seq<Link>)
  {
    forall i, j :: 0 <= i < j < |s| ==> s[i].sort <= s[j].sort
  }

  /** Places `x` in front of `s`, moving it past each leading element the
      comparator reports as smaller than `x`. */
  function InsertBy(cmp: (Link, Link) -> int, x: Link, s: seq<Link>): (r: seq<Link>)
    ensures multiset(r) == multiset(s) + multiset{x}
    ensures |r| == |s| + 1
    ensures r[0] == x || (|s| > 0 && r[0] == s[0])
  {
    if |s| == 0 || cmp(s[0], x) >= 0 then [x] + s
    else
      assert s == [s[0]] + s[1..];
      [s[0]] + InsertBy(cmp, x, s[1..])
  }

  /** Sorts `s` under `cmp` by insertion, last element first. */
  function SortBy(cmp: (Link, Link) -> int, s: seq<Link>): (r: seq<Link>)
    ensures multiset(r) == multiset(s)
    ensures |r| == |s|
  {
    if |s| == 0 then []
    else
      assert s == [s[0]] + s[1..];
      InsertBy(cmp, s[0], SortBy(cmp, s[1..]))
  }

  /** The three-way comparison on `sort`: negative, zero or positive as the
      first key is below, equal to or above the second. */
  function CompareSort(a: Link, b: Link): (r: int)
    ensures r < 0 <==> a.sort < b.sort
    ensures r == 0 <==> a.sort == b.sort
    ensures r > 0 <==> a.sort > b.sort
  {
    if a.sort < b.sort then -1 else if a.sort > b.sort then 1 else 0
  }

  /** The comparator as written in the router, `(a, b) => a.sort > b.sort`:
      the boolean result is read by the sort as 1 or 0. */
  function SourceCompare(a: Link, b: Link): (r: int)
    ensures r == 0 || r == 1
    ensures r == 1 <==> a.sort > b.sort
  {
    if a.sort > b.sort then 1 else 0
  }

  /** Inserting into a sorted list under `CompareSort` keeps it sorted. */
  lemma {:induction false} InsertSorted(x: Link, s: seq<Link>)
    requires Sorted(s)
    ensures Sorted(InsertBy(CompareSort, x, s))
  {
    var r := InsertBy(CompareSort, x, s);
    if |s| == 0 || CompareSort(s[0], x) >= 0 {
      assert r == [x] + s;
      forall i, j | 0 <= i < j < |r| ensures r[i].sort <= r[j].sort {
        if i > 0 {
          assert r[i] == s[i - 1] && r[j] == s[j - 1];
        } else {
          assert r[j] == s[j - 1] && s[0].sort <= s[j - 1].sort;
        }
      }
    } else {
      var t := InsertBy(CompareSort, x, s[1..]);
      assert Sorted(s[1..]) by {
        forall i, j | 0 <= i < j < |s[1..]| ensures s[1..][i].sort <= s[1..][j].sort {
          assert s[1..][i] == s[i + 1] && s[1..][j] == s[j + 1];
        }
      }
      InsertSorted(x, s[1..]);
      assert r == [s[0]] + t;
      assert s[0].sort <= t[0].sort;
      forall i, j | 0 <= i < j < |r| ensures r[i].sort <= r[j].sort {
        if i > 0 {
          assert r[i] == t[i - 1] && r[j] == t[j - 1];
        } else {
          assert r[j] == t[j - 1];
          assert j - 1 == 0 || t[0].sort <= t[j - 1].sort;
        }
      }
    }
  }

  /** Sorting under the three-way comparator yields ascending `sort` order. */
  lemma {:induction false} SortByCompareSortSorted(s: seq<Link>)
    ensures Sorted(SortBy(CompareSort, s))
  {
    if |s| > 0 {
      SortByCompareSortSorted(s[1..]);
      InsertSorted(s[0], SortBy(CompareSort, s[1..]));
    }
  }

  /** `Object.keys(slugs).filter((slug) => slug !== self)`, kept with the nodes. */
  function Kept(entries: seq<Entry>, self: string): (r: seq<Entry>)
    ensures |r| <= |entries|
    ensures forall e :: e in r <==> e in entries && e.slug != self
  {
    if |entries| == 0 then []
    else if entries[0].slug == self then Kept(entries[1..], self)
    else [entries[0]] + Kept(entries[1..], self)
  }

  /** With distinct keys, exactly one entry is dropped when `self` is a key,
      and none otherwise. */
  lemma {:induction false} KeptCount(entries: seq<Entry>, self: string)
    requires DistinctSlugs(entries)
    ensures |Kept(entries, self)| == |entries| - (if self in Slugs(entries) then 1 else 0)
  {
    if |entries| > 0 {
      var rest := entries[1..];
      assert DistinctSlugs(rest) by {
        forall i, j | 0 <= i < j < |rest| ensures rest[i].slug != rest[j].slug {
          assert rest[i] == entries[i + 1] && rest[j] == entries[j + 1];
        }
      }
      KeptCount(rest, self);
      assert Slugs(entries) == [entries[0].slug] + Slugs(rest);
      if entries[0].slug == self {
        forall i | 0 <= i < |rest| ensures Slugs(rest)[i] != self {
          assert rest[i] == entries[i + 1];
        }
        assert self !in Slugs(rest);
      }
    }
  }

  /** The link of one child: its node type from the node, the rest from the
      metadata of its id. */
  function ToLink(e: Entry, getMeta: string -> Meta): Link
  {
    var m := getMeta(e.node.id);
    Link(m.sort, e.node.kind, m.prettyName, m.webViewLink, m.path)
  }

  /** The link of each child, in key order: its node type from the child,
      its sort key, name, edit link and url from the child's metadata. */
  function Links(entries: seq<Entry>, getMeta: string -> Meta): (r: seq<Link>)
    ensures |r| == |entries|
    ensures forall i :: 0 <= i < |entries| ==>
              && r[i].nodeType == entries[i].node.kind
              && r[i].sort == getMeta(entries[i].node.id).sort
              && r[i].name == getMeta(entries[i].node.id).prettyName
              && r[i].editLink == getMeta(entries[i].node.id).webViewLink
              && r[i].url == getMeta(entries[i].node.id).path
  {
    seq(|entries|, i requires 0 <= i < |entries| => ToLink(entries[i], getMeta))
  }

  /** `createRelatedList(slugs, self, baseUrl)`; `baseUrl` is not used by
      the router's function, so it is not a parameter here. */
  function RelatedList(entries: seq<Entry>, self: string, getMeta: string -> Meta): (r: seq<Link>)
    ensures Sorted(r)
    ensures multiset(r) == multiset(Links(Kept(entries, self), getMeta))
  {
    var r := SortBy(CompareSort, Links(Kept(entries, self), getMeta));
    SortByCompareSortSorted(Links(Kept(entries, self), getMeta));
    r
  }

  /** Every link in the list belongs to an entry other than `self`, and every
      entry other than `self` contributes its link. */
  lemma RelatedListMembers(entries: seq<Entry>, self: string, getMeta: string -> Meta)
    ensures forall l :: l in RelatedList(entries, self, getMeta) ==>
              exists e :: e in entries && e.slug != self && l == ToLink(e, getMeta)
    ensures forall e :: e in entries && e.slug != self ==>
              ToLink(e, getMeta) in RelatedList(entries, self, getMeta)
  {
    var kept := Kept(entries, self);
    var links := Links(kept, getMeta);
    var r := RelatedList(entries, self, getMeta);
    forall l | l in r
      ensures exists e :: e in entries && e.slug != self && l == ToLink(e, getMeta)
    {
      assert l in multiset(r);
      assert l in links;
      var i :| 0 <= i < |links| && links[i] == l;
      assert kept[i] in kept;
    }
    forall e | e in entries && e.slug != self
      ensures ToLink(e, getMeta) in r
    {
      assert e in kept;
      var i :| 0 <= i < |kept| && kept[i] == e;
      assert links[i] == ToLink(e, getMeta);
      assert ToLink(e, getMeta) in multiset(links);
    }
  }

  /** Under the router's comparator nothing ever moves: the "sorted" list is
      the input in key order. */
  lemma {:induction false} SourceSortKeepsOrder(s: seq<Link>)
    ensures SortBy(SourceCompare, s) == s
  {
    if |s| > 0 {
      SourceSortKeepsOrder(s[1..]);
      assert s == [s[0]] + s[1..];
    }
  }

  /** Children whose `sort` keys come in the order 3, 1, 2 stay in that order
      under the router's comparator, which is not ascending. */
  lemma UnsortedExample(a: Link, b: Link, c: Link)
    requires a.sort == 3 && b.sort == 1 && c.sort == 2
    ensures SortBy(SourceCompare, [a, b, c]) == [a, b, c]
    ensures !Sorted(SortBy(SourceCompare, [a, b, c]))
  {
    SourceSortKeepsOrder([a, b, c]);
    assert [a, b, c][0].sort > [a, b, c][1].sort;
  }

  /** The same children come out in the order 1, 2, 3 under the three-way
      comparator. */
  lemma SortedExample(a: Link, b: Link, c: Link)
    requires a.sort == 3 && b.sort == 1 && c.sort == 2
    ensures SortBy(CompareSort, [a, b, c]) == [b, c, a]
  {
    assert [a, b, c][1..] == [b, c] && [b, c][1..] == [c] && [c][1..] == [];
    assert SortBy(CompareSort, [c]) == [c];
    assert InsertBy(CompareSort, b, [c]) == [b, c];
    assert SortBy(CompareSort, [b, c]) == [b, c];
    assert InsertBy(CompareSort, a, []) == [a];
    assert InsertBy(CompareSort, a, [c]) == [c, a];
    assert InsertBy(CompareSort, a, [b, c]) == [b, c, a];
  }
}

=== FILE: strings.dfy ===
/**
 * The two JavaScript string operations the router relies on:
 * `s.split(sep)` for a one-character separator and `parts.join(sep)`.
 */
module Strings {

  /** `s.split(sep)`: the maximal separator-free pieces of `s`, in order.
      There is always at least one piece; `"".split("/")` is `[""]`. */
  function Split(s: string, sep: char): (r: seq<string>)
    ensures |r| >= 1
    ensures forall i :: 0 <= i < |r| ==> sep !in r[i]
  {
    if s == [] then [""]
    else
      var rest := Split(s[1..], sep);
      if s[0] == sep then [""] + rest
      else [[s[0]] + rest[0]] + rest[1..]
  }

  /** `parts.join(sep)`: the pieces with one separator between neighbours. */
  function Join(parts: seq<string>, sep: char): string
  {
    if |parts| == 0 then ""
    else if |parts| == 1 then parts[0]
    else parts[0] + [sep] + Join(parts[1..], sep)
  }

  /** Joining the pieces of a split gives back the original string. */
  lemma {:induction false} JoinSplit(s: string, sep: char)
    ensures Join(Split(s, sep), sep) == s
  {
    if s != [] {
      var rest := Split(s[1..], sep);
      JoinSplit(s[1..], sep);
      if s[0] == sep {
        assert Split(s, sep) == [""] + rest;
        assert Join([""] + rest, sep) == "" + [sep] + Join(rest, sep);
        assert s == [s[0]] + s[1..];
      } else {
        var r := Split(s, sep);
        assert r == [[s[0]] + rest[0]] + rest[1..];
        if |rest| == 1 {
          assert Join(r, sep) == [s[0]] + rest[0];
          assert Join(rest, sep) == rest[0];
        } else {
          assert r[1..] == rest[1..];
          assert Join(r, sep) == [s[0]] + rest[0] + [sep] + Join(rest[1..], sep);
          assert Join(rest, sep) == rest[0] + [sep] + Join(rest[1..], sep);
        }
        assert s == [s[0]] + s[1..];
      }
    }
  }

  /** A separator-free prefix `a` glues onto the first piece of what follows it. */
  lemma {:induction false} SplitFreePrefix(a: string, t: string, sep: char)
    requires sep !in a
    ensures Split(a + t, sep) == [a + Split(t, sep)[0]] + Split(t, sep)[1..]
  {
    if a != [] {
      SplitFreePrefix(a[1..], t, sep);
      assert (a + t)[1..] == a[1..] + t;
      assert (a + t)[0] == a[0] != sep;
      assert [a[0]] + (a[1..] + Split(t, sep)[0]) == a + Split(t, sep)[0];
    } else {
      var r := Split(t, sep);
      assert a + t == t && a + r[0] == r[0];
      assert r == [r[0]] + r[1..];
    }
  }

  /** Splitting a join of separator-free pieces gives back the pieces. */
  lemma {:induction false} SplitJoin(parts: seq<string>, sep: char)
    requires |parts| >= 1
    requires forall i :: 0 <= i < |parts| ==> sep !in parts[i]
    ensures Split(Join(parts, sep), sep) == parts
  {
    if |parts| == 1 {
      SplitFreePrefix(parts[0], "", sep);
      assert parts[0] + "" == parts[0];
    } else {
      var tail := [sep] + Join(parts[1..], sep);
      assert Join(parts, sep) == parts[0] + tail;
      SplitFreePrefix(parts[0], tail, sep);
      SplitJoin(parts[1..], sep);
      assert tail[1..] == Join(parts[1..], sep);
      assert Split(tail, sep) == [""] + parts[1..];
      assert parts[0] + "" == parts[0];
      assert parts == [parts[0]] + parts[1..];
    }
  }

  /** Joining a longer list cuts into the join of a shorter prefix, one separator, and the rest. */
  lemma {:induction false} JoinCut(parts: seq<string>, k: nat, sep: char)
    requires 1 <= k < |parts|
    ensures Join(parts, sep) == Join(parts[..k], sep) + [sep] + Join(parts[k..], sep)
  {
    if k > 1 {
      JoinCut(parts[1..], k - 1, sep);
      assert parts[1..][..k - 1] == parts[..k][1..];
      assert parts[1..][k - 1..] == parts[k..];
    }
  }

  /** The join of a prefix of the pieces is a prefix of the join of all of them. */
  lemma JoinPrefix(parts: seq<string>, k: nat, sep: char)
    requires 1 <= k <= |parts|
    ensures Join(parts[..k], sep) <= Join(parts, sep)
  {
    if k < |parts| {
      JoinCut(parts, k, sep);
    } else {
      assert parts[..k] == parts;
    }
  }
}

=== FILE: wrappers.dfy ===
/** Optional values and success-or-error results used across the model. */
module Wrappers {

  datatype Option<+T> = None | Some(value: T)

  datatype Result<+T, +E> = Ok(value: T) | Err(error: E)
}
